=== FILE: README.md ===
# Session and data stores of the Slack-clone chat client, in Dafny

This project models the stateful core of a browser chat client. The core has an
authentication provider and three stores that depend on it: channels,
messages and users. Every asynchronous call becomes one deterministic step.
The outcome of the remote call is an input of that step: success with a body,
an HTTP error with its status (401 among them), or a network failure. With that
change, everything is a pure function from a state and an outcome to the next
state (and the value the call returns).

Modules, following the program's files:

- `Base`: optional values, results, and the JavaScript string idioms the code
  uses (`a || b` on strings, `includes`, `join`).
- `JsText`: `String.prototype.trim` and `parseInt`, as ECMAScript defines
  them (whitespace set, sign, `0x` prefix for an absent radix, longest digit
  prefix, NaN), and `String(n)` for integers.
- `Remote`: server outcomes, the thrown error as catch blocks read it, and
  the records the API returns.
- `Session`: the authentication provider: credential record, current user,
  loading flag, error, and the copy in local storage.
- `ChannelService`: the channel REST service with its "Not authenticated"
  guard.
- `Channels`: the channel provider and its input validators.
- `MessageService`: the message-service hook and its 401 rule.
- `Messages`: the messages provider.
- `Users`: the users provider.
- `App`: the combined state, events, the reactions to the authentication flag,
  runs of events, and the invariants over runs.

The model follows what the code does:

- `createChannel` calls the service without headers. The service guard
  therefore always rejects with "Not authenticated", and no channel is ever
  created (`Channels.CreateChannel`, `Channels.CreateChannelMakesNoRequest`).
- The channel service defines neither `getChannel` nor `addMembers`.
  `fetchChannel` therefore always ends in a TypeError (`Channels.FetchChannel`).
  `addChannelMembers` rejects with "No valid user IDs provided" when no id
  is read as a positive integer, and with the TypeError otherwise
  (`Channels.AddChannelMembers`). Its refetch of the current channel after
  the call is never reached.
- The message hook's error handler always rethrows. The `return []` after it
  in `fetchMessages` cannot be reached, so the handler's result carries only
  an error.
- The users store never reacts to a logout
  (`App.LogoutClearsChannelsAndMessagesButNotUsers`).
- The deauthentication reactions fire only when the flag changes. A channel
  selected while logged out therefore survives a later logout
  (`App.SelectionWhileLoggedOutSurvivesLogout`).
- `isTokenExpired` calls `parseInt` without a radix, so an expiry written as
  `0x…` is read as hexadecimal (`JsText.ParseIntHexPrefix`).

Four things a reader might expect are absent from the code, and the model
does not add them:
- logout does not clear the user directory;
- a created channel is not inserted into the list before the server answers;
- a message answer that arrives after another channel was selected is not
  discarded;
- a 401 from `fetchChannels` or `fetchUsers` does not log out: only the
  message service, token validation and `refreshUser` end the session on a
  401.

"No request is made" is stated as independence from the outcome: the
step gives the same result whatever the server would have answered.

## Model

| member | source | states |
|---|---|---|
| `Session.Restore` | src/context/AuthProvider.jsx:8-15 | start-up installs the stored credential record with no user, `loading` true and no error, so the session is coherent and not authenticated |
| `Session.IsTokenExpired` | src/context/AuthProvider.jsx:18-22 | a missing or empty expiry is expired; a NaN expiry is never expired; otherwise expired iff now > seconds·1000, with the expiry read by `parseInt` without a radix |
| `Session.RenderedExpiry` | src/context/AuthProvider.jsx:18-22 | an expiry written as decimal seconds `t` is expired exactly when now > t·1000 |
| `Session.ExpiryIsMonotone` | src/context/AuthProvider.jsx:18-22 | a token expired at one time stays expired at every later time |
| `Session.HandleHeaders` | src/context/AuthProvider.jsx:25-35 | installs the record of access-token, uid, expiry and client, persists that same record, and changes nothing else |
| `Session.OtherHeadersIgnored` | src/context/AuthProvider.jsx:26-31 | any header other than the four leaves the installed record unchanged |
| `Session.PersistedRecordRestores` | src/context/AuthProvider.jsx:8-35 | restoring the persisted record gives back exactly the installed credentials |
| `Session.Logout` | src/context/AuthProvider.jsx:38-47 | credentials, user and stored record become absent from any state; loading and error stay; the result is not authenticated |
| `Session.LogoutIdempotent` | src/context/AuthProvider.jsx:38-47 | logging out twice equals logging out once |
| `Session.Authenticate` | src/context/AuthProvider.jsx:62-86 | a body installs credentials and user together and clears the error; a failure keeps credentials and user and records the error text; loading ends false; coherence is kept |
| `Session.AuthFailureText` | src/context/AuthProvider.jsx:79-135 | a failed sign-in reports the server's `errors` if truthy, else "Invalid credentials"; a failed sign-up reports `errors.full_messages` joined by ", " if that text is non-empty, else "Error creating account" |
| `Session.SignupMessagesJoined` | src/context/AuthProvider.jsx:127-130 | two sign-up messages are reported as one text, the first, ", ", then the second |
| `Base.JoinAppend` | src/context/AuthProvider.jsx:128 | joining one more item appends the separator and that item to the joined text |
| `Session.Login` | src/context/AuthProvider.jsx:49-87 | a failed sign-in returns and records the server's `errors` or "Invalid credentials" |
| `Session.Signup` | src/context/AuthProvider.jsx:89-140 | differing passwords fail with "Passwords do not match" and leave the whole session unchanged; otherwise it behaves as sign-in with the sign-up error text |
| `Session.SignupMismatchMakesNoRequest` | src/context/AuthProvider.jsx:89-92 | with differing passwords the result does not depend on the server's answer |
| `Session.ValidationCaught` | src/context/AuthProvider.jsx:186-199 | the caught message becomes the error; logout happens exactly when it mentions "401" or "Unauthorized" |
| `Session.Validate` | src/context/AuthProvider.jsx:143-203 | no credentials: only loading drops; expired or 401: logout; other failures go through the catch block; OK: user := `data.data` or else the body; loading always ends false; coherence is kept |
| `Session.ValidationFailureIsNotUnauthorized` | src/context/AuthProvider.jsx:179-196 | for every three-digit status other than 401 the thrown message mentions neither "401" nor "Unauthorized" |
| `Session.ValidationServerErrorKeepsSession` | src/context/AuthProvider.jsx:178-199 | a non-401 HTTP failure keeps credentials and user and only records the error |
| `Session.RefreshUser` | src/context/AuthProvider.jsx:205-228 | no-op without credentials; OK sets the user to the whole body; 401 logs out; any other failure changes nothing |
| `Session.CredentialsAloneNotAuthenticated` | src/context/AuthProvider.jsx:240 | credentials without a current user are not authenticated |
| `JsText.Trim` | src/context/ChannelProvider.jsx:81 | the trimmed name neither starts nor ends with whitespace and is empty exactly when the name is all whitespace |
| `JsText.TrimIsInfix` | src/context/ChannelProvider.jsx:81 | the trimmed name is a block of the name with only whitespace around it |
| `JsText.ShowInt` | src/context/AuthProvider.jsx:180 | the rendering of a status is non-empty and starts with '-' exactly for negatives |
| `JsText.ParseInt` | src/context/ChannelProvider.jsx:156 | an invalid radix, or input that is empty or all whitespace, gives NaN |
| `JsText.ParseIntDecimalForm` | src/context/ChannelProvider.jsx:156 | with radix 10, an optional sign, a run of digits and a tail that is not a digit read as the digits' value, negated after '-', and as NaN when there are no digits |
| `JsText.LoneSignIsNaN` | src/context/ChannelProvider.jsx:156 | a '+' or '-' with no digit after it gives NaN |
| `JsText.NoLeadingNumberIsNaN` | src/context/ChannelProvider.jsx:156 | text starting with no whitespace, sign or digit gives NaN |
| `JsText.ParseIntLeadingZero` | src/context/ChannelProvider.jsx:156 | a leading zero never changes the number read |
| `JsText.ParseIntReadsLeadingNumber` | src/context/ChannelProvider.jsx:156 | with radix 10 the longest number at the front is read: a rendered integer followed by any non-digit text is read as that integer |
| `JsText.ParseIntShowInt` | src/context/AuthProvider.jsx:20 | `parseInt` with radix 10 or no radix reads back every rendered integer |
| `JsText.ParseIntHexPrefix` | src/context/AuthProvider.jsx:20 | with no radix or radix 16, `0x` followed by hex digits reads as their hexadecimal value |
| `JsText.ParseIntSkipsSpace` | src/context/ChannelProvider.jsx:83 | leading whitespace never changes what `parseInt` reads |
| `ChannelService.GetChannels` | src/services/channelService.js:6-24 | without headers carrying an access token it rejects with "Not authenticated" whatever the server says; otherwise it returns the body unchanged or rethrows the request error |
| `ChannelService.CreateChannel` | src/services/channelService.js:26-44 | the same guard, pass-through and rethrow for channel creation |
| `ChannelService.GuardMakesNoRequest` | src/services/channelService.js:7-9 | a refused call gives the same result for any server answer |
| `Channels.Collect` | src/context/ChannelProvider.jsx:155-157 | the collected ids all pass the filter, every id read and accepted is kept, and each kept id was read from some input |
| `Channels.CollectAppend` | src/context/ChannelProvider.jsx:155-157 | `map` then `filter` works id by id: the ids of a concatenation are the ids of each part, in order, none merged or dropped |
| `Channels.CollectOne` | src/context/ChannelProvider.jsx:155-157 | a single id contributes its number exactly when it is read as a number and kept, and nothing otherwise |
| `Channels.IdsAppend` | src/context/ChannelProvider.jsx:82-84 | both validators keep order and multiplicity: the result for a concatenation is the concatenation of the results |
| `Channels.IdsOne` | src/context/ChannelProvider.jsx:82-84 | one id gives its number for a new channel whenever `parseInt` reads one, and for new members only when it is positive |
| `Channels.CollectThenFilter` | src/context/ChannelProvider.jsx:155-157 | filtering while collecting equals collecting every number and filtering afterwards |
| `Channels.ParsedIds` | src/context/ChannelProvider.jsx:82-84 | every id that `parseInt(id, 10)` reads is kept, zero and negatives included, and nothing else is |
| `Channels.ValidMemberIds` | src/context/ChannelProvider.jsx:155-157 | exactly the ids read as positive integers are kept |
| `Channels.MemberIdsArePositiveParsedIds` | src/context/ChannelProvider.jsx:155-157 | the member-id filter is the positive part of the new-channel id filter |
| `Channels.MemberIdsExample` | src/context/ChannelProvider.jsx:155-161 | ["abc","-1","3"] gives [-1,3] for a new channel and [3] for members; ["abc","-1"] gives no member ids |
| `Channels.ErrorText` | src/context/ChannelProvider.jsx:57-61 | the recorded text is the server's `errors` if truthy, else its `error` if truthy, else a non-empty message, else the fallback |
| `Channels.Caught` | src/context/ChannelProvider.jsx:56-67 | a caught error drops loading and is rethrown unchanged; an error raised locally (no response) records its own message |
| `Channels.FetchChannels` | src/context/ChannelProvider.jsx:44-68 | logged out: no change and no request; success replaces the list wholesale and clears the error; failure keeps the list, rethrows exactly the service's error (the request's, or "Not authenticated" from the guard) and records its text |
| `Channels.Created` | src/context/ChannelProvider.jsx:92-107 | a returned channel is prepended and becomes current; a rejection leaves the list and current channel unchanged |
| `Channels.CreateChannel` | src/context/ChannelProvider.jsx:71-113 | logged out: throws with no change; an all-whitespace name rejects with "Channel name is required"; any other name is rejected by the service guard; the list and current channel never change, and `loading` ends false |
| `Channels.CreateChannelMakesNoRequest` | src/context/ChannelProvider.jsx:92 | since no headers are passed, the result never depends on the server's answer |
| `Channels.EmptyNameRejected` | src/context/ChannelProvider.jsx:87-90 | an empty name is rejected locally |
| `Channels.FetchChannel` | src/context/ChannelProvider.jsx:116-142 | logged out it throws with no change; otherwise it fails with the missing-function TypeError and the current channel stays |
| `Channels.AddChannelMembers` | src/context/ChannelProvider.jsx:145-185 | with no positive id it rejects with "No valid user IDs provided"; otherwise it fails on the missing service function; the list and current channel never change, and `loading` ends false |
| `Channels.SelectChannel` | src/context/ChannelProvider.jsx:188-190 | only the current channel changes |
| `Channels.ClearError` | src/context/ChannelProvider.jsx:193-195 | only the error changes |
| `Channels.ReadyAfterChannelActions` | src/context/ChannelProvider.jsx:108-182 | `isReady` holds after `createChannel`, `fetchChannel` and `addChannelMembers` of an authenticated store, whatever the outcome |
| `Channels.ReadyAfterFetchChannels` | src/context/ChannelProvider.jsx:213 | `isReady` holds after any completed `fetchChannels` of an authenticated store, and never while logged out |
| `Channels.Cleared` | src/context/ChannelProvider.jsx:36-40 | losing authentication empties the list and the current channel and keeps loading and error |
| `Channels.LoggedOutActionsChangeNothing` | src/context/ChannelProvider.jsx:44-75 | logged out, the store is not ready and every action but selection and clearing the error leaves the store unchanged; all but `fetchChannels` throw |
| `MessageService.HandleAuthError` | src/hooks/useMessageService.js:8-16 | logs out exactly on status 401 and rethrows the same error in every case |
| `MessageService.FetchMessages` | src/hooks/useMessageService.js:18-34 | without credentials: [] and no request; success returns the body; failure propagates after the 401 check and never yields a value |
| `MessageService.SendMessage` | src/hooks/useMessageService.js:36-49 | success returns the server's message; failure propagates after the 401 check |
| `MessageService.UnauthorizedEndsSession` | src/hooks/useMessageService.js:8-16 | a 401 on fetch or send leaves no credentials and no authentication |
| `MessageService.OtherFailuresKeepSession` | src/hooks/useMessageService.js:26-46 | any other failure leaves the session unchanged and propagates |
| `Messages.Cleared` | src/context/MessagesProvider.jsx:15-20 | losing authentication empties the messages and the active channel |
| `Messages.LoadMessages` | src/context/MessagesProvider.jsx:22-35 | logged out or a falsy id: messages := [] with the active id unchanged; otherwise the id becomes active, success replaces the list by the body or [], and failure keeps the list and propagates |
| `Messages.LoadWithoutChannelMakesNoRequest` | src/context/MessagesProvider.jsx:23-26 | a falsy id gives the same result for any server answer and an empty list |
| `Messages.CreateMessage` | src/context/MessagesProvider.jsx:37-47 | no active channel or no session: null and no change; success appends exactly the server's message and returns it; failure returns null with the list unchanged |
| `Messages.SendAppendsServerMessage` | src/context/MessagesProvider.jsx:40-42 | after a successful send the list is the old list plus the server's message at the end |
| `Users.FetchUsers` | src/context/UsersProvider.jsx:31-46 | logged out: no-op; success replaces the directory and clears the error; failure keeps the directory and records the server's `errors` or "Failed to fetch users" |
| `Users.AutoFetch` | src/context/UsersProvider.jsx:49-53 | the automatic fetch runs only when authenticated with an empty directory |
| `Users.AutoFetchLoadsOnce` | src/context/UsersProvider.jsx:49-53 | after an automatic fetch has loaded a non-empty directory, the next automatic fetch changes nothing whatever the server would answer |
| `App.Init` | src/context/AuthProvider.jsx:8-15 | the client starts unauthenticated with the stored credentials |
| `App.React` | src/context/ChannelProvider.jsx:33-41 | when authentication goes from true to false, channels and messages are cleared; otherwise nothing changes; session and users are never touched |
| `App.LoggedOutStaysEmpty` | src/context/ChannelProvider.jsx:44-48 | while logged out no operation fills the channel list or the message list or activates a channel |
| `App.StepKeepsInvariant` | src/context/AuthProvider.jsx:38-228 | every step keeps "no user without credentials" and "logged out means no channels, messages or active channel" |
| `App.RunKeepsInvariant` | src/context/AuthProvider.jsx:38-228 | the invariant holds after any sequence of steps |
| `App.ReachableStatesAreConsistent` | src/context/AuthProvider.jsx:38-228 | from start-up, after any events, no user is present without credentials, and a logged-out client holds no channels, no messages and no active channel |
| `App.OnlyUserEventsTouchUsers` | src/context/UsersProvider.jsx:14-53 | every event except the two user fetches, logout included, leaves the user directory unchanged |
| `App.LosingAuthenticationClearsStores` | src/context/MessagesProvider.jsx:15-20 | any step that loses authentication leaves no channels, current channel, messages or active channel |
| `App.LogoutClearsChannelsAndMessagesButNotUsers` | src/context/UsersProvider.jsx:14-53 | logout from an authenticated state clears credentials, storage, channels and messages and leaves the user directory as it was |
| `App.LogoutTwiceIsLogoutOnce` | src/context/AuthProvider.jsx:38-47 | two logouts in a row equal one |
| `App.SelectionWhileLoggedOutSurvivesLogout` | src/context/ChannelProvider.jsx:188-190 | a channel selected while logged out is still current after a logout |
| `App.UnauthorizedLoadEndsSession` | src/hooks/useMessageService.js:26-31 | a 401 while loading messages ends the session and clears the stores in the same step |
| `App.UnauthorizedSendEndsSession` | src/hooks/useMessageService.js:43-45 | a 401 while sending ends the session and clears the messages |

## Left out

- HTTP error statuses: an `HttpError` outcome is meant to carry a status outside 200-299, but the type does not restrict it. A 2xx status given as an `HttpError` is handled as a failure, whereas `fetch` would report it as `ok`.
- Channels.Collect: its own ensures say which values are kept. Order and multiplicity are stated separately by `Channels.CollectAppend` and `Channels.CollectOne`.
- Channels.ParsedIds: its own ensures say which values are kept. Order and multiplicity are stated separately by `Channels.IdsAppend` and `Channels.IdsOne`.
- Channels.ValidMemberIds: its own ensures say which values are kept. Order and multiplicity are stated separately by `Channels.IdsAppend` and `Channels.IdsOne`.
- Asynchrony: each call is one atomic step. Interleavings are not modelled: a stale `loadMessages` answer overwriting a newer selection, a logout during a fetch, or validation racing a logout. The code has no guard against them.
- Effect scheduling: token validation, the channel auto-fetch on authentication and the users auto-fetch are events that a run may place anywhere. The model does not force them to follow a change of credentials or of the flag.
- Session.IsTokenExpired: the clock is an integer parameter and the ×1000 is exact integer arithmetic. JavaScript numbers are doubles, so expiries beyond 2^53 milliseconds would round.
- JsText.ParseInt: the value is an exact integer, while JavaScript rounds long digit strings to a double. Inputs are strings; the implicit `ToString` of non-string ids is not modelled.
- HTTP and JSON: axios, `fetch`, request bodies and headers are replaced by the outcome inputs. A `response.json()` that fails to parse is not modelled. Server error bodies are reduced to `errors` and `error` as text plus `errors.full_messages`.
- Local storage: reduced to the single persisted credential record. The four separate keys that `logout` removes are never written by this code.
- Console logging, the `useAuth`/`useChannel`/`useUsers` outside-provider errors, and the `Content-Type` header that `getAuthHeaders` adds.
- The TypeError text for the missing `getChannel`/`addMembers` is engine-dependent. A fixed text stands for it.
- UI, routing and the thin message REST wrapper.

=== FILE: app.dfy ===
/**
  The whole client state: the session and the three stores that depend on
  it, driven by a sequence of events. Each event is one provider operation
  with the outcome of the remote call it makes; after it, the reactions to
  the authentication flag run at once: when the flag goes from true to
  false, the channel and message providers clear themselves. The users
  provider has no such reaction. Token validation and the automatic fetches
  are events too, so a run may place them anywhere, which includes every
  order in which the effects actually fire.
 */
module App {
  import opened Base
  import opened Remote
  import Session
  import Channels
  import MessageService
  import Messages
  import Users

  datatype App = App(
    session: Session.Session,
    channels: Channels.ChannelStore,
    messages: Messages.MessageStore,
    users: Users.UserStore)

  datatype Event =
    | Login(email: string, password: string, authReply: Outcome<Session.AuthReply>)
    | Signup(signupEmail: string, signupPassword: string, confirmation: string, signupReply: Outcome<Session.AuthReply>)
    | Logout
    | Validate(now: int, validateReply: Outcome<Session.UserBody>)
    | RefreshUser(refreshReply: Outcome<Session.UserBody>)
    | FetchChannels(channelsReply: Outcome<seq<Channel>>)
    | CreateChannel(name: string, memberIds: seq<string>, channelReply: Outcome<Channel>)
    | FetchChannel(channelId: int)
    | AddChannelMembers(targetId: int, userIds: seq<string>)
    | SelectChannel(channel: Option<Channel>)
    | ClearChannelError
    | LoadMessages(id: Option<int>, messagesReply: Outcome<MessageService.MessagesBody>)
    | CreateMessage(content: string, messageReply: Outcome<Message>)
    | FetchUsers(usersReply: Outcome<seq<Profile>>)
    | AutoFetchUsers(autoReply: Outcome<seq<Profile>>)

  /** The state at start-up, with the credential record read from storage. */
  function Init(stored: Option<Session.Credentials>): (a: App)
    ensures !Session.IsAuthenticated(a.session)
    ensures a.session.credentials == stored
  {
    App(Session.Restore(stored), Channels.Initial, Messages.Initial, Users.Initial)
  }

  /** The operation an event performs, before any reaction. */
  function Perform(a: App, e: Event): App {
    var auth := Session.IsAuthenticated(a.session);
    match e
    case Login(email, password, reply) => a.(session := Session.Login(a.session, email, password, reply).0)
    case Signup(email, password, confirmation, reply) =>
      a.(session := Session.Signup(a.session, email, password, confirmation, reply).0)
    case Logout => a.(session := Session.Logout(a.session))
    case Validate(now, reply) => a.(session := Session.Validate(a.session, now, reply))
    case RefreshUser(reply) => a.(session := Session.RefreshUser(a.session, reply))
    case FetchChannels(reply) =>
      a.(channels := Channels.FetchChannels(a.channels, auth, a.session.credentials, reply).0)
    case CreateChannel(name, ids, reply) =>
      a.(channels := Channels.CreateChannel(a.channels, auth, name, ids, reply).0)
    case FetchChannel(id) => a.(channels := Channels.FetchChannel(a.channels, auth, id).0)
    case AddChannelMembers(id, ids) => a.(channels := Channels.AddChannelMembers(a.channels, auth, id, ids).0)
    case SelectChannel(channel) => a.(channels := Channels.SelectChannel(a.channels, channel))
    case ClearChannelError => a.(channels := Channels.ClearError(a.channels))
    case LoadMessages(id, reply) =>
      var (st, s, _) := Messages.LoadMessages(a.messages, a.session, id, reply);
      a.(messages := st, session := s)
    case CreateMessage(content, reply) =>
      var (st, s, _) := Messages.CreateMessage(a.messages, a.session, content, reply);
      a.(messages := st, session := s)
    case FetchUsers(reply) => a.(users := Users.FetchUsers(a.users, auth, reply))
    case AutoFetchUsers(reply) => a.(users := Users.AutoFetch(a.users, auth, reply))
  }

  /** The effects on `[isAuthenticated]`: when the flag went from true to
      false, channels and messages are cleared; users are left alone. */
  function React(before: Session.Session, a: App): (r: App)
    ensures r.session == a.session && r.users == a.users
    ensures Session.IsAuthenticated(before) && !Session.IsAuthenticated(a.session) ==>
      r.channels == Channels.Cleared(a.channels) && r.messages == Messages.Cleared(a.messages)
    ensures !(Session.IsAuthenticated(before) && !Session.IsAuthenticated(a.session)) ==> r == a
  {
    if Session.IsAuthenticated(before) && !Session.IsAuthenticated(a.session) then
      a.(channels := Channels.Cleared(a.channels), messages := Messages.Cleared(a.messages))
    else a
  }

  function Step(a: App, e: Event): App {
    React(a.session, Perform(a, e))
  }

  function Run(a: App, events: seq<Event>): App
    decreases |events|
  {
    if |events| == 0 then a else Run(Step(a, events[0]), events[1..])
  }

  /** What holds in every reachable state: no user without credentials, and
      while logged out no channel list, no messages and no active channel. */
  predicate Invariant(a: App) {
    && Session.Coherent(a.session)
    && (!Session.IsAuthenticated(a.session) ==>
          a.channels.channels == [] && a.messages.messages == [] && a.messages.active == None)
  }

  lemma InitSatisfiesInvariant(stored: Option<Session.Credentials>)
    ensures Invariant(Init(stored))
  {
  }

  /** Every operation keeps the session coherent. */
  lemma PerformKeepsCoherent(a: App, e: Event)
    requires Session.Coherent(a.session)
    ensures Session.Coherent(Perform(a, e).session)
  {
  }

  /** While logged out before and after, no operation fills the channel
      list or the message list or activates a channel. */
  lemma LoggedOutStaysEmpty(a: App, e: Event)
    requires Invariant(a) && !Session.IsAuthenticated(a.session)
    ensures Perform(a, e).channels.channels == []
    ensures Perform(a, e).messages.messages == [] && Perform(a, e).messages.active == None
  {
  }

  /** Every step keeps the invariant. */
  lemma StepKeepsInvariant(a: App, e: Event)
    requires Invariant(a)
    ensures Invariant(Step(a, e))
  {
    PerformKeepsCoherent(a, e);
    if !Session.IsAuthenticated(a.session) {
      LoggedOutStaysEmpty(a, e);
    }
  }

  /** Every run keeps the invariant. */
  lemma {:induction false} RunKeepsInvariant(a: App, events: seq<Event>)
    requires Invariant(a)
    ensures Invariant(Run(a, events))
    decreases |events|
  {
    if |events| > 0 {
      StepKeepsInvariant(a, events[0]);
      RunKeepsInvariant(Step(a, events[0]), events[1..]);
    }
  }

  /** From start-up, across any sequence of events, a current user is never
      present without credentials, and a logged-out client shows no
      channels and no messages. */
  lemma ReachableStatesAreConsistent(stored: Option<Session.Credentials>, events: seq<Event>)
    ensures Session.Coherent(Run(Init(stored), events).session)
    ensures !Session.IsAuthenticated(Run(Init(stored), events).session) ==>
      && Run(Init(stored), events).channels.channels == []
      && Run(Init(stored), events).messages.messages == []
      && Run(Init(stored), events).messages.active == None
  {
    InitSatisfiesInvariant(stored);
    RunKeepsInvariant(Init(stored), events);
  }

  /** Losing authentication in a step clears channels, the current channel,
      messages and the active channel, whatever they held. */
  lemma LosingAuthenticationClearsStores(a: App, e: Event)
    requires Session.IsAuthenticated(a.session) && !Session.IsAuthenticated(Step(a, e).session)
    ensures Step(a, e).channels.channels == [] && Step(a, e).channels.current == None
    ensures Step(a, e).messages.messages == [] && Step(a, e).messages.active == None
  {
  }

  /** Logging out an authenticated client empties channels and messages,
      but the user directory is kept as it was. */
  lemma LogoutClearsChannelsAndMessagesButNotUsers(a: App)
    requires Session.IsAuthenticated(a.session)
    ensures var b := Step(a, Logout);
      !Session.IsAuthenticated(b.session) && b.session.credentials == None && b.session.stored == None
      && b.channels.channels == [] && b.channels.current == None
      && b.messages.messages == [] && b.messages.active == None
      && b.users == a.users
  {
  }

  /** Logging out twice in a row is the same as logging out once. */
  lemma LogoutTwiceIsLogoutOnce(a: App)
    ensures Step(Step(a, Logout), Logout) == Step(a, Logout)
  {
    Session.LogoutIdempotent(a.session);
  }

  /** The reactions fire only on a change of the flag: a channel selected
      while logged out stays selected through a later logout. */
  lemma SelectionWhileLoggedOutSurvivesLogout(a: App, c: Channel)
    requires !Session.IsAuthenticated(a.session)
    ensures Step(Step(a, SelectChannel(Some(c))), Logout).channels.current == Some(c)
  {
  }

  /** A 401 while loading messages ends the session and clears the stores
      in the same step. */
  lemma UnauthorizedLoadEndsSession(a: App, id: Option<int>, data: ErrorData)
    requires Session.IsAuthenticated(a.session) && Messages.IsTruthy(id)
    ensures var b := Step(a, LoadMessages(id, HttpError(401, data)));
      !Session.IsAuthenticated(b.session) && b.session.credentials == None
      && b.messages.messages == [] && b.messages.active == None && b.channels.channels == []
  {
  }

  /** A 401 while sending ends the session and clears the stores too. */
  lemma UnauthorizedSendEndsSession(a: App, content: string, data: ErrorData)
    requires Session.IsAuthenticated(a.session) && Messages.IsTruthy(a.messages.active)
    ensures var b := Step(a, CreateMessage(content, HttpError(401, data)));
      !Session.IsAuthenticated(b.session) && b.session.credentials == None && b.messages.messages == []
  {
  }

  /** Only the two user events touch the user directory: logging out,
      losing authentication or any other event leaves it as it was. */
  lemma OnlyUserEventsTouchUsers(a: App, e: Event)
    requires !e.FetchUsers? && !e.AutoFetchUsers?
    ensures Step(a, e).users == a.users
  {
  }
}

=== FILE: base.dfy ===
/**
  Small value types shared by every module of the model: optional values,
  success-or-error results, and the few JavaScript string idioms the client
  relies on (truthiness of an optional string, `a || b`, `includes`, `join`).
 */
module Base {

  /** A JavaScript value that may be `null`/`undefined` (`None`) or present. */
  datatype Option<+T> = None | Some(value: T) {
    function GetOr(default: T): T {
      match this
      case Some(v) => v
      case None => default
    }
  }

  /** The outcome of a call that either returns a value or throws an error. */
  datatype Result<+T, +E> = Ok(value: T) | Err(error: E)

  /** A JavaScript string value is truthy when it is present and non-empty. */
  predicate Truthy(v: Option<string>) {
    v.Some? && v.value != ""
  }

  /** The JavaScript expression `v || fallback` for an optional string `v`. */
  function Either(v: Option<string>, fallback: string): (r: string)
    ensures Truthy(v) ==> r == v.value
    ensures !Truthy(v) ==> r == fallback
  {
    if Truthy(v) then v.value else fallback
  }

  /** `s.includes(sub)`: `sub` occurs as a contiguous block of `s`. */
  predicate Contains(s: string, sub: string) {
    exists i | 0 <= i <= |s| - |sub| :: OccursAt(s, sub, i)
  }

  predicate OccursAt(s: string, sub: string, i: int)
    requires 0 <= i <= |s| - |sub|
  {
    s[i..i + |sub|] == sub
  }

  /** `items.join(sep)`. */
  function Join(items: seq<string>, sep: string): (r: string)
    ensures items == [] ==> r == ""
    ensures |items| == 1 ==> r == items[0]
    ensures |items| > 0 ==> |items[0]| <= |r| && r[..|items[0]|] == items[0]
  {
    if |items| == 0 then ""
    else if |items| == 1 then items[0]
    else items[0] + sep + Join(items[1..], sep)
  }

  /** Joining one more item appends the separator and the item. */
  lemma {:induction false} JoinAppend(items: seq<string>, x: string, sep: string)
    requires items != []
    ensures Join(items + [x], sep) == Join(items, sep) + sep + x
  {
    if |items| == 1 {
      assert items + [x] == [items[0], x];
      assert [items[0], x][1..] == [x];
    } else {
      assert (items + [x])[0] == items[0];
      assert (items + [x])[1..] == items[1..] + [x];
      JoinAppend(items[1..], x, sep);
    }
  }
}

=== FILE: channel_service.dfy ===
/**
  The channel REST service. Both calls refuse to make a request unless they
  are given headers carrying an access token, and otherwise pass the
  response body or the request error through unchanged. The service defines
  no other call.
 */
module ChannelService {
  import opened Base
  import opened Remote
  import opened Session

  /** The body of a channel creation request. */
  datatype NewChannel = NewChannel(name: string, userIds: seq<int>)

  const NotAuthenticated := "Not authenticated"

  /** The header guard: `headers` is given and its `access-token` is truthy. */
  predicate Authorized(headers: Option<Credentials>) {
    headers.Some? && Truthy(headers.value.accessToken)
  }

  /** The common shape of both calls. */
  function Request<T>(headers: Option<Credentials>, reply: Outcome<T>): (r: Result<T, JsError>)
    ensures !Authorized(headers) ==> r == Err(Raise(NotAuthenticated))
    ensures Authorized(headers) && reply.Success? ==> r == Ok(reply.body)
    ensures Authorized(headers) && !reply.Success? ==> r == Err(Thrown(reply))
  {
    if !Authorized(headers) then Err(Raise(NotAuthenticated))
    else if reply.Success? then Ok(reply.body)
    else Err(Thrown(reply))
  }

  /** `getChannels(headers)`. */
  function GetChannels(headers: Option<Credentials>, reply: Outcome<seq<Channel>>): (r: Result<seq<Channel>, JsError>)
    ensures !Authorized(headers) ==> r == Err(Raise(NotAuthenticated))
    ensures Authorized(headers) ==> (r.Ok? <==> reply.Success?)
    ensures Authorized(headers) && reply.Success? ==> r.value == reply.body
    ensures Authorized(headers) && !reply.Success? ==> r.error == Thrown(reply)
  {
    Request(headers, reply)
  }

  /** `createChannel(channelData, headers)`. */
  function CreateChannel(data: NewChannel, headers: Option<Credentials>, reply: Outcome<Channel>): (r: Result<Channel, JsError>)
    ensures !Authorized(headers) ==> r == Err(Raise(NotAuthenticated))
    ensures Authorized(headers) ==> (r.Ok? <==> reply.Success?)
    ensures Authorized(headers) && reply.Success? ==> r.value == reply.body
    ensures Authorized(headers) && !reply.Success? ==> r.error == Thrown(reply)
  {
    Request(headers, reply)
  }

  /** Without an access token no request is made: the result does not depend
      on what the server would have answered. */
  lemma GuardMakesNoRequest<T>(headers: Option<Credentials>, r1: Outcome<T>, r2: Outcome<T>)
    requires !Authorized(headers)
    ensures Request(headers, r1) == Request(headers, r2) == Err(Raise(NotAuthenticated))
  {
  }
}

=== FILE: channels.dfy ===
/**
  The channel provider: the channel list, the current channel, a loading
  flag and the last error. Every action but `selectChannel` and `clearError`
  first requires an authenticated session; the provider reads that flag and
  the credential record from the session and never changes the session.
  As written, `createChannel` calls the service without headers, and
  `fetchChannel` and `addChannelMembers` call service functions that do not
  exist, so none of the three can succeed.
 */
module Channels {
  import opened Base
  import opened JsText
  import opened Remote
  import opened Session
  import ChannelService

  datatype ChannelStore = ChannelStore(channels: seq<Channel>, current: Option<Channel>, loading: bool, error: Option<string>)

  const Initial := ChannelStore([], None, false, None)

  /** The messages of the TypeError thrown by calling a service function
      that the channel service does not define (the exact wording is the
      JavaScript engine's). */
  const MissingGetChannel := "channelService.getChannel is not a function"
  const MissingAddMembers := "channelService.addMembers is not a function"

  /** `getAuthHeaders()`: an empty object without credentials, otherwise the
      four fields of the credential record. */
  function AuthHeaders(credentials: Option<Credentials>): Credentials {
    credentials.GetOr(Credentials(None, None, None, None))
  }

  /** The text every catch block stores:
      `errors || error || message || fallback`. */
  function ErrorText(e: JsError, fallback: string): (r: string)
    ensures Truthy(ResponseErrors(e)) ==> r == ResponseErrors(e).value
    ensures !Truthy(ResponseErrors(e)) && Truthy(ResponseError(e)) ==> r == ResponseError(e).value
    ensures !Truthy(ResponseErrors(e)) && !Truthy(ResponseError(e)) && e.message != "" ==> r == e.message
    ensures !Truthy(ResponseErrors(e)) && !Truthy(ResponseError(e)) && e.message == "" ==> r == fallback
  {
    Either(ResponseErrors(e), Either(ResponseError(e), Either(Some(e.message), fallback)))
  }

  /** The shared catch/finally: record the error text, drop the flag, rethrow. */
  function Caught<T>(st: ChannelStore, e: JsError, fallback: string): (r: (ChannelStore, Result<T, JsError>))
    ensures r.0 == st.(loading := false, error := Some(ErrorText(e, fallback)))
    ensures r.1 == Err(e)
    ensures e.data == None && e.message != "" ==> r.0.error == Some(e.message)
  {
    (st.(loading := false, error := Some(ErrorText(e, fallback))), Err(e))
  }

  /** A member id as the provider reads it: `parseInt(id, 10)`. */
  function ReadId(id: string): Number {
    ParseInt(id, 10)
  }

  /** The numbers `read` finds in `ids`, in order, keeping those `keep`
      accepts: the `ids.map(read).filter(...)` of both validators. */
  function Collect(ids: seq<string>, read: string -> Number, keep: int -> bool): (r: seq<int>)
    ensures |r| <= |ids|
    ensures forall x | x in r :: keep(x)
    ensures forall id | id in ids && read(id).Int? && keep(read(id).value) :: read(id).value in r
    ensures forall x | x in r :: exists id | id in ids :: read(id) == Int(x)
  {
    if |ids| == 0 then []
    else
      var rest := Collect(ids[1..], read, keep);
      var n := read(ids[0]);
      assert forall id | id in ids[1..] :: id in ids;
      if n.Int? && keep(n.value) then [n.value] + rest else rest
  }

  /** Keeps the elements of `xs` that `keep` accepts. */
  function Filter(xs: seq<int>, keep: int -> bool): seq<int> {
    if |xs| == 0 then []
    else if keep(xs[0]) then [xs[0]] + Filter(xs[1..], keep)
    else Filter(xs[1..], keep)
  }

  /** Collecting distributes over concatenation: nothing is reordered,
      merged or dropped across the two parts. */
  lemma {:induction false} CollectAppend(a: seq<string>, b: seq<string>, read: string -> Number, keep: int -> bool)
    ensures Collect(a + b, read, keep) == Collect(a, read, keep) + Collect(b, read, keep)
  {
    if |a| == 0 {
      assert a + b == b;
    } else {
      assert (a + b)[0] == a[0];
      assert (a + b)[1..] == a[1..] + b;
      CollectAppend(a[1..], b, read, keep);
    }
  }

  /** A single id contributes its number exactly when it is read and kept. */
  lemma CollectOne(id: string, read: string -> Number, keep: int -> bool)
    ensures Collect([id], read, keep) == if read(id).Int? && keep(read(id).value) then [read(id).value] else []
  {
    assert [id][1..] == [];
  }

  /** Collecting with a condition is collecting everything and filtering
      afterwards. */
  lemma {:induction false} CollectThenFilter(ids: seq<string>, read: string -> Number, keep: int -> bool)
    ensures Collect(ids, read, keep) == Filter(Collect(ids, read, AnyId), keep)
  {
    if |ids| > 0 {
      CollectThenFilter(ids[1..], read, keep);
      var n := read(ids[0]);
      if n.Int? {
        var all := Collect(ids, read, AnyId);
        assert all == [n.value] + Collect(ids[1..], read, AnyId);
        assert all[1..] == Collect(ids[1..], read, AnyId);
      }
    }
  }

  function AnyId(x: int): bool {
    true
  }

  function IsPositive(x: int): bool {
    x > 0
  }

  /** The member ids of a new channel: every id `parseInt(id, 10)` reads,
      NaN dropped, so zero and negative ids stay. */
  function ParsedIds(ids: seq<string>): (r: seq<int>)
    ensures forall id | id in ids && ReadId(id).Int? :: ReadId(id).value in r
    ensures forall x | x in r :: exists id | id in ids :: ReadId(id) == Int(x)
  {
    Collect(ids, ReadId, AnyId)
  }

  /** The ids `addChannelMembers` keeps: NaN and non-positive values
      dropped. */
  function ValidMemberIds(ids: seq<string>): (r: seq<int>)
    ensures forall x | x in r :: x > 0
    ensures forall id | id in ids && ReadId(id).Int? && ReadId(id).value > 0 :: ReadId(id).value in r
    ensures forall x | x in r :: exists id | id in ids :: ReadId(id) == Int(x)
  {
    Collect(ids, ReadId, IsPositive)
  }

  /** The two validators agree: the ids kept for new members are the
      positive ones among the ids kept for a new channel. */
  lemma MemberIdsArePositiveParsedIds(ids: seq<string>)
    ensures ValidMemberIds(ids) == Filter(ParsedIds(ids), IsPositive)
  {
    CollectThenFilter(ids, ReadId, IsPositive);
  }

  /** Both validators work id by id, in order, one number per accepted id:
      with `IdsOne` this fixes their results completely, duplicates
      included. */
  lemma IdsAppend(a: seq<string>, b: seq<string>)
    ensures ParsedIds(a + b) == ParsedIds(a) + ParsedIds(b)
    ensures ValidMemberIds(a + b) == ValidMemberIds(a) + ValidMemberIds(b)
  {
    CollectAppend(a, b, ReadId, AnyId);
    CollectAppend(a, b, ReadId, IsPositive);
  }

  /** A single id: `ParsedIds` keeps every number read, `ValidMemberIds`
      only a positive one. */
  lemma IdsOne(id: string)
    ensures ParsedIds([id]) == if ReadId(id).Int? then [ReadId(id).value] else []
    ensures ValidMemberIds([id]) == if ReadId(id).Int? && ReadId(id).value > 0 then [ReadId(id).value] else []
  {
    CollectOne(id, ReadId, AnyId);
    CollectOne(id, ReadId, IsPositive);
  }

  lemma ParseExampleIds()
    ensures ReadId("abc") == NaN
    ensures ReadId("-1") == Int(-1)
    ensures ReadId("3") == Int(3)
  {
    ReadsNoDigits();
    ReadsMinusOne();
    ReadsThree();
  }

  lemma ReadsNoDigits()
    ensures ParseInt("abc", 10) == NaN
  {
    var s := "abc";
    assert s[0] == 'a' && DigitCode('a') == 10;
    NoLeadingNumberIsNaN(s);
  }

  lemma ReadsMinusOne()
    ensures ParseInt("-1", 10) == Int(-1)
  {
    assert ShowInt(-1) == "-1";
    ParseIntShowInt(-1, 10);
  }

  lemma ReadsThree()
    ensures ParseInt("3", 10) == Int(3)
  {
    assert ShowInt(3) == "3";
    ParseIntShowInt(3, 10);
  }

  /** One step of `Collect`: the first id is read, kept or dropped. */
  lemma CollectStep(ids: seq<string>, read: string -> Number, keep: int -> bool)
    requires |ids| > 0
    ensures var n := read(ids[0]);
      Collect(ids, read, keep) ==
        if n.Int? && keep(n.value) then [n.value] + Collect(ids[1..], read, keep) else Collect(ids[1..], read, keep)
  {
  }

  /** Collecting the example ids with any reader that reads them as
      `parseInt` does. */
  lemma CollectExample(read: string -> Number)
    requires read("abc") == NaN && read("-1") == Int(-1) && read("3") == Int(3)
    ensures Collect(["abc", "-1", "3"], read, AnyId) == [-1, 3]
    ensures Collect(["abc", "-1", "3"], read, IsPositive) == [3]
    ensures Collect(["abc", "-1"], read, IsPositive) == []
  {
    var ids := ["abc", "-1", "3"];
    assert ids[1..] == ["-1", "3"] && ids[1..][1..] == ["3"] && ids[1..][1..][1..] == [];
    CollectStep(ids, read, AnyId);
    CollectStep(ids[1..], read, AnyId);
    CollectStep(ids[1..][1..], read, AnyId);
    CollectStep(ids, read, IsPositive);
    CollectStep(ids[1..], read, IsPositive);
    CollectStep(ids[1..][1..], read, IsPositive);
    var short := ["abc", "-1"];
    assert short[1..] == ["-1"] && short[1..][1..] == [];
    CollectStep(short, read, IsPositive);
    CollectStep(short[1..], read, IsPositive);
  }

  /** The member list of the example: text, a negative and a positive id. */
  lemma MemberIdsExample()
    ensures ParsedIds(["abc", "-1", "3"]) == [-1, 3]
    ensures ValidMemberIds(["abc", "-1", "3"]) == [3]
    ensures ValidMemberIds(["abc", "-1"]) == []
  {
    ParseExampleIds();
    CollectExample(ReadId);
  }

  /** `fetchChannels`: nothing (and no request) while logged out; otherwise
      the list is replaced wholesale by the server's, or kept with the error
      recorded and rethrown. */
  function FetchChannels(st: ChannelStore, auth: bool, credentials: Option<Credentials>, reply: Outcome<seq<Channel>>): (r: (ChannelStore, Result<Option<seq<Channel>>, JsError>))
    ensures !auth ==> r == (st, Ok(None))
    ensures auth ==> !r.0.loading && r.0.current == st.current
    ensures auth ==> (r.1.Ok? <==> ChannelService.Authorized(Some(AuthHeaders(credentials))) && reply.Success?)
    ensures auth && r.1.Ok? ==> r.1 == Ok(Some(reply.body)) && r.0.channels == reply.body && r.0.error == None
    ensures auth && r.1.Err? ==> r.0.channels == st.channels && r.0.error == Some(ErrorText(r.1.error, "Failed to fetch channels"))
    ensures auth && r.1.Err? ==>
      r.1.error == (if ChannelService.Authorized(Some(AuthHeaders(credentials))) then Thrown(reply) else Raise(ChannelService.NotAuthenticated))
  {
    if !auth then (st, Ok(None))
    else
      match ChannelService.GetChannels(Some(AuthHeaders(credentials)), reply)
      case Ok(data) => (st.(channels := data, loading := false, error := None), Ok(Some(data)))
      case Err(e) => Caught(st, e, "Failed to fetch channels")
  }

  /** What `createChannel` does with the service's answer: a created channel
      goes to the front of the list and becomes current; a rejection leaves
      both as they were. */
  function Created(st: ChannelStore, answer: Result<Channel, JsError>): (r: (ChannelStore, Result<Channel, JsError>))
    ensures r.1 == answer && !r.0.loading
    ensures answer.Ok? ==>
      r.0.channels == [answer.value] + st.channels && r.0.current == Some(answer.value) && r.0.error == None
    ensures answer.Err? ==>
      r.0.channels == st.channels && r.0.current == st.current
      && r.0.error == Some(ErrorText(answer.error, "Failed to create channel"))
  {
    match answer
    case Ok(channel) =>
      (st.(channels := [channel] + st.channels, current := Some(channel), loading := false, error := None), answer)
    case Err(e) => Caught(st, e, "Failed to create channel")
  }

  /** The service call of `createChannel`, made without headers: it is
      refused whatever the server would answer. */
  function Submit(st: ChannelStore, data: ChannelService.NewChannel, reply: Outcome<Channel>): (r: (ChannelStore, Result<Channel, JsError>))
    ensures r == Caught(st, Raise(ChannelService.NotAuthenticated), "Failed to create channel")
  {
    Created(st, ChannelService.CreateChannel(data, None, reply))
  }

  /** `createChannel(name, userIds)`. The name is trimmed and must not be
      empty; the service is then called without headers, so it always
      rejects with "Not authenticated" and the list never changes. */
  function CreateChannel(st: ChannelStore, auth: bool, name: string, ids: seq<string>, reply: Outcome<Channel>): (r: (ChannelStore, Result<Channel, JsError>))
    ensures !auth ==> r == (st, Err(Raise("You must be logged in to create a channel")))
    ensures r.1.Err? && r.0.channels == st.channels && r.0.current == st.current
    ensures auth && AllSpace(name) ==>
      r.1 == Err(Raise("Channel name is required")) && r.0.error == Some("Channel name is required")
    ensures auth && !AllSpace(name) ==>
      r.1 == Err(Raise(ChannelService.NotAuthenticated)) && r.0.error == Some(ChannelService.NotAuthenticated)
    ensures auth ==> !r.0.loading
  {
    if !auth then (st, Err(Raise("You must be logged in to create a channel")))
    else
      var trimmed := Trim(name);
      if trimmed == "" then Caught(st, Raise("Channel name is required"), "Failed to create channel")
      else Submit(st, ChannelService.NewChannel(trimmed, ParsedIds(ids)), reply)
  }

  /** `fetchChannel(id)`: the service has no `getChannel`, so the call
      throws a TypeError; the current channel is never replaced. */
  function FetchChannel(st: ChannelStore, auth: bool, id: int): (r: (ChannelStore, Result<Channel, JsError>))
    ensures !auth ==> r == (st, Err(Raise("You must be logged in to view channels")))
    ensures auth ==> r == (st.(loading := false, error := Some(MissingGetChannel)), Err(Raise(MissingGetChannel)))
  {
    if !auth then (st, Err(Raise("You must be logged in to view channels")))
    else Caught(st, Raise(MissingGetChannel), "Failed to fetch channel")
  }

  /** `addChannelMembers(channelId, userIds)`: without a positive id it
      rejects before any call; with one it reaches the missing `addMembers`
      and throws a TypeError. The list and current channel never change. */
  function AddChannelMembers(st: ChannelStore, auth: bool, channelId: int, ids: seq<string>): (r: (ChannelStore, Result<(), JsError>))
    ensures !auth ==> r == (st, Err(Raise("You must be logged in to add members")))
    ensures r.1.Err? && r.0.channels == st.channels && r.0.current == st.current
    ensures auth && ValidMemberIds(ids) == [] ==>
      r.1 == Err(Raise("No valid user IDs provided")) && r.0.error == Some("No valid user IDs provided")
    ensures auth && ValidMemberIds(ids) != [] ==>
      r.1 == Err(Raise(MissingAddMembers)) && r.0.error == Some(MissingAddMembers)
    ensures auth ==> !r.0.loading
  {
    if !auth then (st, Err(Raise("You must be logged in to add members")))
    else if ValidMemberIds(ids) == [] then Caught(st, Raise("No valid user IDs provided"), "Failed to add members")
    else Caught(st, Raise(MissingAddMembers), "Failed to add members")
  }

  /** `selectChannel(channel)`: only the current channel changes, whether or
      not the session is authenticated. */
  function SelectChannel(st: ChannelStore, channel: Option<Channel>): (r: ChannelStore)
    ensures r.current == channel
    ensures r.channels == st.channels && r.loading == st.loading && r.error == st.error
  {
    st.(current := channel)
  }

  /** `clearError()`: only the error changes. */
  function ClearError(st: ChannelStore): (r: ChannelStore)
    ensures r.error == None
    ensures r.channels == st.channels && r.current == st.current && r.loading == st.loading
  {
    st.(error := None)
  }

  /** `isReady`. */
  predicate IsReady(st: ChannelStore, auth: bool) {
    auth && !st.loading
  }

  /** A completed `fetchChannels` leaves an authenticated store ready,
      whatever the answer; a logged-out store is never ready. */
  lemma ReadyAfterFetchChannels(st: ChannelStore, credentials: Option<Credentials>, reply: Outcome<seq<Channel>>)
    ensures IsReady(FetchChannels(st, true, credentials, reply).0, true)
    ensures !IsReady(st, false)
  {
  }

  /** `createChannel`, `fetchChannel` and `addChannelMembers` end with
      `loading` false, so an authenticated store is ready after each of
      them, whatever the outcome. */
  lemma ReadyAfterChannelActions(st: ChannelStore, name: string, ids: seq<string>, channelId: int, reply: Outcome<Channel>)
    ensures IsReady(CreateChannel(st, true, name, ids, reply).0, true)
    ensures IsReady(FetchChannel(st, true, channelId).0, true)
    ensures IsReady(AddChannelMembers(st, true, channelId, ids).0, true)
  {
  }

  /** The reaction to losing authentication. */
  function Cleared(st: ChannelStore): (r: ChannelStore)
    ensures r.channels == [] && r.current == None
    ensures r.loading == st.loading && r.error == st.error
  {
    st.(channels := [], current := None)
  }

  /** While logged out every action but selection and clearing the error is
      refused and changes nothing: `fetchChannels` returns, the others throw. */
  lemma LoggedOutActionsChangeNothing(st: ChannelStore, credentials: Option<Credentials>, name: string, ids: seq<string>, id: int,
                                      r1: Outcome<seq<Channel>>, r2: Outcome<Channel>)
    ensures !IsReady(st, false)
    ensures FetchChannels(st, false, credentials, r1).0 == st
    ensures CreateChannel(st, false, name, ids, r2).0 == st && CreateChannel(st, false, name, ids, r2).1.Err?
    ensures FetchChannel(st, false, id).0 == st && FetchChannel(st, false, id).1.Err?
    ensures AddChannelMembers(st, false, id, ids).0 == st && AddChannelMembers(st, false, id, ids).1.Err?
  {
  }

  /** The local validators decide before any request: an all-whitespace name
      or a member list without a positive id gives the same result whatever
      the server would answer; and since `createChannel` passes no headers,
      no answer of the server ever matters to it. */
  lemma CreateChannelMakesNoRequest(st: ChannelStore, auth: bool, name: string, ids: seq<string>, r1: Outcome<Channel>, r2: Outcome<Channel>)
    ensures CreateChannel(st, auth, name, ids, r1) == CreateChannel(st, auth, name, ids, r2)
  {
  }

  /** `createChannel("", [])` rejects locally. */
  lemma EmptyNameRejected(st: ChannelStore, reply: Outcome<Channel>)
    ensures CreateChannel(st, true, "", [], reply).1 == Err(Raise("Channel name is required"))
  {
  }
}

=== FILE: jstext.dfy ===
/**
  The two JavaScript string built-ins the client uses to validate input:
  `String.prototype.trim` (channel names) and the global `parseInt`
  (channel member ids with radix 10, token expiry with no radix).
  Both follow the ECMAScript definitions: whitespace is the WhiteSpace and
  LineTerminator code points, and `parseInt` skips leading whitespace, reads
  an optional sign, strips a `0x`/`0X` prefix when the radix is absent or 16,
  and then takes the longest prefix of digits valid in the radix; with no
  digits the result is NaN.
 */
module JsText {

  /** The number `parseInt` produces: NaN or an integer. */
  datatype Number = NaN | Int(value: int)

  /** ECMAScript WhiteSpace (TAB, VT, FF, ZWNBSP and the Zs space separators)
      and LineTerminator (LF, CR, LS, PS). */
  predicate IsSpace(c: char) {
    var k := c as int;
    k == 0x09 || k == 0x0A || k == 0x0B || k == 0x0C || k == 0x0D
    || k == 0x20 || k == 0xA0 || k == 0x1680 || (0x2000 <= k <= 0x200A)
    || k == 0x2028 || k == 0x2029 || k == 0x202F || k == 0x205F
    || k == 0x3000 || k == 0xFEFF
  }

  predicate AllSpace(s: string) {
    forall k | 0 <= k < |s| :: IsSpace(s[k])
  }

  /** `s` with its leading whitespace removed. */
  function TrimStart(s: string): (r: string)
    ensures |r| <= |s| && r == s[|s| - |r|..]
    ensures AllSpace(s[..|s| - |r|])
    ensures r == [] || !IsSpace(r[0])
  {
    if |s| > 0 && IsSpace(s[0]) then
      var r := TrimStart(s[1..]);
      assert s[..|s| - |r|] == [s[0]] + s[1..][..|s| - 1 - |r|];
      r
    else s
  }

  /** `s` with its trailing whitespace removed. */
  function TrimEnd(s: string): (r: string)
    ensures |r| <= |s| && r == s[..|r|]
    ensures AllSpace(s[|r|..])
    ensures r == [] || !IsSpace(r[|r| - 1])
  {
    if |s| > 0 && IsSpace(s[|s| - 1]) then
      var r := TrimEnd(s[..|s| - 1]);
      assert s[|r|..] == s[..|s| - 1][|r|..] + [s[|s| - 1]];
      r
    else s
  }

  /** `s.trim()`: the text of `s` without surrounding whitespace; it is
      empty exactly when `s` is all whitespace. */
  function Trim(s: string): (r: string)
    ensures |r| <= |s|
    ensures r != [] ==> !IsSpace(r[0]) && !IsSpace(r[|r| - 1])
    ensures r == [] <==> AllSpace(s)
  {
    var t := TrimStart(s);
    var r := TrimEnd(t);
    assert r == [] ==> AllSpace(t) by {
      assert r == [] ==> t[|r|..] == t;
    }
    assert t != [] ==> t[0] == s[|s| - |t|];
    assert r == [] ==> s == s[..|s| - |t|] + t;
    r
  }

  /** `r` occurs in `s` at `i` with only whitespace before and after it. */
  predicate Framed(s: string, r: string, i: int)
    requires 0 <= i <= |s| - |r|
  {
    s[i..i + |r|] == r && AllSpace(s[..i]) && AllSpace(s[i + |r|..])
  }

  /** `Trim(s)` is a block of `s` surrounded by whitespace only. */
  lemma TrimIsInfix(s: string)
    ensures exists i | 0 <= i <= |s| - |Trim(s)| :: Framed(s, Trim(s), i)
  {
    var t := TrimStart(s);
    var r := TrimEnd(t);
    assert r == Trim(s);
    var i := |s| - |t|;
    assert s[i..] == t;
    assert s[i..i + |r|] == r by {
      assert s[i..i + |r|] == t[..|r|];
    }
    assert AllSpace(s[..i]);
    assert AllSpace(s[i + |r|..]) by {
      assert s[i + |r|..] == t[|r|..];
    }
    assert Framed(s, r, i);
  }

  /** The digit value of `c` in any radix up to 36; 36 when `c` is no digit. */
  function DigitCode(c: char): (d: nat)
    ensures d <= 36
  {
    if '0' <= c <= '9' then (c as int) - ('0' as int)
    else if 'a' <= c <= 'z' then (c as int) - ('a' as int) + 10
    else if 'A' <= c <= 'Z' then (c as int) - ('A' as int) + 10
    else 36
  }

  predicate IsDigit(c: char, radix: nat) {
    DigitCode(c) < radix
  }

  predicate AllDigits(s: string, radix: nat) {
    forall k | 0 <= k < |s| :: IsDigit(s[k], radix)
  }

  /** The length of the longest prefix of `s` made of digits in `radix`. */
  function DigitRun(s: string, radix: nat): (n: nat)
    ensures n <= |s|
    ensures AllDigits(s[..n], radix)
    ensures n == |s| || !IsDigit(s[n], radix)
  {
    if |s| == 0 || !IsDigit(s[0], radix) then 0
    else 1 + DigitRun(s[1..], radix)
  }

  /** The value of a digit string, most significant digit first. */
  function Value(ds: string, radix: nat): nat
    requires AllDigits(ds, radix)
  {
    if |ds| == 0 then 0
    else Value(ds[..|ds| - 1], radix) * radix + DigitCode(ds[|ds| - 1])
  }

  /** The sign and the rest of `t`: a leading `-` negates, a leading `+`
      is dropped. */
  function Unsigned(t: string): (bool, string)
  {
    if |t| > 0 && t[0] == '-' then (true, t[1..])
    else if |t| > 0 && t[0] == '+' then (false, t[1..])
    else (false, t)
  }

  predicate HasHexPrefix(u: string) {
    |u| >= 2 && u[0] == '0' && (u[1] == 'x' || u[1] == 'X')
  }

  /** The number read from the longest digit prefix of `z` in `base`. */
  function ReadDigits(z: string, base: nat, negative: bool): Number {
    var n := DigitRun(z, base);
    if n == 0 then NaN
    else
      var v: int := Value(z[..n], base);
      Int(if negative then -v else v)
  }

  /** `parseInt(s, radix)`; a radix of 0 stands for an absent radix
      (ToInt32(undefined) is 0). */
  function ParseInt(s: string, radix: int): (r: Number)
    ensures radix != 0 && (radix < 2 || radix > 36) ==> r == NaN
    ensures AllSpace(s) ==> r == NaN
  {
    assert AllSpace(s) ==> TrimStart(s) == [] by {
      var t := TrimStart(s);
      assert t != [] ==> t[0] == s[|s| - |t|];
    }
    var (negative, u) := Unsigned(TrimStart(s));
    if radix != 0 && (radix < 2 || radix > 36) then NaN
    else if (radix == 0 || radix == 16) && HasHexPrefix(u) then ReadDigits(u[2..], 16, negative)
    else ReadDigits(u, if radix == 0 then 10 else radix, negative)
  }

  /** The character of a decimal digit. */
  function DigitChar(d: nat): (c: char)
    requires d < 10
    ensures IsDigit(c, 10) && DigitCode(c) == d
  {
    (('0' as int) + d) as char
  }

  /** The decimal rendering of a natural number, as `String(n)` writes it. */
  function ShowNat(n: nat): (r: string)
    ensures |r| > 0 && AllDigits(r, 10)
    ensures |r| > 1 ==> r[0] != '0'
  {
    if n < 10 then [DigitChar(n)]
    else ShowNat(n / 10) + [DigitChar(n % 10)]
  }

  /** The decimal rendering of an integer, as `String(n)` and template
      literals write it. */
  function ShowInt(n: int): (r: string)
    ensures |r| > 0
    ensures r[0] == '-' <==> n < 0
  {
    if n < 0 then "-" + ShowNat(-n) else ShowNat(n)
  }

  /** Reading a rendered decimal number back gives the number. */
  lemma {:induction false} ValueOfShowNat(n: nat)
    ensures Value(ShowNat(n), 10) == n
  {
    if n >= 10 {
      ValueOfShowNat(n / 10);
      var xs := ShowNat(n / 10);
      var ys := ShowNat(n);
      assert ys == xs + [DigitChar(n % 10)];
      assert ys[..|ys| - 1] == xs;
    }
  }

  /** A string of digits followed by a non-digit is read up to the digits. */
  lemma {:induction false} DigitRunOfDigits(ds: string, rest: string, radix: nat)
    requires AllDigits(ds, radix)
    requires rest == [] || !IsDigit(rest[0], radix)
    ensures DigitRun(ds + rest, radix) == |ds|
    ensures (ds + rest)[..|ds|] == ds
  {
    if |ds| == 0 {
      assert ds + rest == rest;
    } else {
      assert (ds + rest)[0] == ds[0];
      assert (ds + rest)[1..] == ds[1..] + rest;
      DigitRunOfDigits(ds[1..], rest, radix);
    }
  }

  /** `parseInt` with radix 10 or with no radix inverts `String(n)`. */
  lemma ParseIntShowInt(n: int, radix: int)
    requires radix == 10 || radix == 0
    ensures ParseInt(ShowInt(n), radix) == Int(n)
  {
    var m: nat := if n < 0 then -n else n;
    var ds := ShowNat(m);
    var s := ShowInt(n);
    assert !IsSpace(s[0]);
    assert TrimStart(s) == s;
    var u := Unsigned(s).1;
    assert u == ds;
    assert !HasHexPrefix(u);
    DigitRunOfDigits(ds, [], 10);
    assert ds + [] == ds;
    ValueOfShowNat(m);
  }

  /** Without a radix, as with radix 16, a `0x` prefix selects hexadecimal:
      the hex digits after it are read up to the first non-hex character. */
  lemma ParseIntHexPrefix(ds: string, rest: string, radix: int)
    requires radix == 0 || radix == 16
    requires ds != [] && AllDigits(ds, 16)
    requires rest == [] || !IsDigit(rest[0], 16)
    ensures ParseInt("0x" + (ds + rest), radix) == Int(Value(ds, 16))
  {
    var u := "0x" + (ds + rest);
    assert u[0] == '0' && u[1] == 'x';
    TrimStartNonSpace(u);
    assert Unsigned(u) == (false, u);
    assert u[2..] == ds + rest;
    DigitRunOfDigits(ds, rest, 16);
  }

  /** `parseInt` with radix 10 reads the longest number at the front: a
      rendered integer followed by anything that is not a digit is read as
      that integer. */
  lemma ParseIntReadsLeadingNumber(n: int, rest: string)
    requires rest == [] || !IsDigit(rest[0], 10)
    ensures ParseInt(ShowInt(n) + rest, 10) == Int(n)
  {
    var m: nat := if n < 0 then -n else n;
    var sign := if n < 0 then "-" else "";
    ShowIntRest(n, rest);
    ParseIntDecimalForm(sign, ShowNat(m), rest);
    ValueOfShowNat(m);
  }

  lemma ShowIntRest(n: int, rest: string)
    ensures ShowInt(n) + rest == (if n < 0 then "-" else "") + (ShowNat(if n < 0 then -n else n) + rest)
  {
  }

  lemma TrimStartNonSpace(s: string)
    requires |s| > 0 && !IsSpace(s[0])
    ensures TrimStart(s) == s
  {
  }

  /** With radix 10 there is no prefix to strip: the digits after the
      whitespace and the sign are read. */
  lemma ParseIntDecimal(s: string)
    ensures ParseInt(s, 10) == ReadDigits(Unsigned(TrimStart(s)).1, 10, Unsigned(TrimStart(s)).0)
  {
  }

  /** `parseInt(s, 10)` on every input written as an optional sign, a
      (possibly empty) run of digits and a tail that does not continue the
      digits: the digits are read, leading zeros included, and negated after
      a '-'; with no digits the result is NaN. The last condition keeps the
      tail from supplying the sign or the leading whitespace itself. The
      text is grouped as `sign + (ds + rest)` so that the statement matches
      what `Unsigned` splits off, which keeps the proof small. */
  lemma ParseIntDecimalForm(sign: string, ds: string, rest: string)
    requires sign == "" || sign == "+" || sign == "-"
    requires AllDigits(ds, 10)
    requires rest == [] || !IsDigit(rest[0], 10)
    requires sign == "" && ds == [] && rest != [] ==> !IsSpace(rest[0]) && rest[0] != '+' && rest[0] != '-'
    ensures ParseInt(sign + (ds + rest), 10) == SignedDigits(sign, ds)
  {
    var u := ds + rest;
    assert sign == "" && u != [] ==> !IsSpace(u[0]) && u[0] != '+' && u[0] != '-' by {
      if ds != [] {
        assert u[0] == ds[0];
        DigitIsNotSpaceOrSign(ds[0]);
      } else {
        assert u == rest;
      }
    }
    ParseSigned(sign, u);
    ReadDigitsOfDigits(ds, rest, sign == "-");
  }

  lemma DigitIsNotSpaceOrSign(c: char)
    requires IsDigit(c, 10)
    ensures !IsSpace(c) && c != '+' && c != '-'
  {
  }

  /** A sign followed by text that starts with neither whitespace nor a
      sign: the text after the sign is read. */
  lemma ParseSigned(sign: string, u: string)
    requires sign == "" || sign == "+" || sign == "-"
    requires sign == "" && u != [] ==> !IsSpace(u[0]) && u[0] != '+' && u[0] != '-'
    ensures ParseInt(sign + u, 10) == ReadDigits(u, 10, sign == "-")
  {
    var s := sign + u;
    if s != [] {
      assert s[0] == (if sign != "" then sign[0] else u[0]);
      TrimStartNonSpace(s);
    }
    UnsignedOfSign(sign, u);
    ParsePlain(s, sign == "-", u);
  }

  /** Text with no leading whitespace is read from its sign and digits. */
  lemma ParsePlain(s: string, negative: bool, u: string)
    requires TrimStart(s) == s && Unsigned(s) == (negative, u)
    ensures ParseInt(s, 10) == ReadDigits(u, 10, negative)
  {
    ParseIntDecimal(s);
  }

  /** The number a sign and a run of digits stand for; NaN without digits. */
  function SignedDigits(sign: string, ds: string): Number
    requires AllDigits(ds, 10)
  {
    if ds == [] then NaN
    else
      var v: int := Value(ds, 10);
      Int(if sign == "-" then -v else v)
  }

  /** Digits followed by a non-digit are read as their value. */
  lemma ReadDigitsOfDigits(ds: string, rest: string, negative: bool)
    requires AllDigits(ds, 10)
    requires rest == [] || !IsDigit(rest[0], 10)
    ensures ReadDigits(ds + rest, 10, negative) ==
      if ds == [] then NaN else Int(if negative then -(Value(ds, 10) as int) else Value(ds, 10))
  {
    DigitRunOfDigits(ds, rest, 10);
  }

  /** The sign in front of a text without its own leading sign is read off. */
  lemma UnsignedOfSign(sign: string, u: string)
    requires sign == "" || sign == "+" || sign == "-"
    requires sign == "" && u != [] ==> u[0] != '+' && u[0] != '-'
    ensures Unsigned(sign + u) == (sign == "-", u)
  {
    if sign != "" {
      assert (sign + u)[1..] == u;
    } else {
      assert sign + u == u;
    }
  }

  /** A sign with no digits after it gives NaN. */
  lemma LoneSignIsNaN(sign: string, rest: string)
    requires sign == "+" || sign == "-"
    requires rest == [] || !IsDigit(rest[0], 10)
    ensures ParseInt(sign + rest, 10) == NaN
  {
    assert sign + rest == sign + ("" + rest);
    ParseIntDecimalForm(sign, "", rest);
  }

  /** Text that starts with neither whitespace, a sign nor a digit gives NaN. */
  lemma NoLeadingNumberIsNaN(s: string)
    requires s == [] || (!IsSpace(s[0]) && s[0] != '+' && s[0] != '-' && !IsDigit(s[0], 10))
    ensures ParseInt(s, 10) == NaN
  {
    assert s == "" + ("" + s);
    ParseIntDecimalForm("", "", s);
  }

  /** A leading zero does not change the value of a digit string. */
  lemma {:induction false} ValueLeadingZero(ds: string)
    requires AllDigits(ds, 10)
    ensures AllDigits("0" + ds, 10) && Value("0" + ds, 10) == Value(ds, 10)
  {
    var z := "0" + ds;
    assert IsDigit('0', 10);
    assert AllDigits(z, 10) by {
      assert forall k | 1 <= k < |z| :: z[k] == ds[k - 1];
    }
    if |ds| > 0 {
      assert z[..|z| - 1] == "0" + ds[..|ds| - 1];
      assert z[|z| - 1] == ds[|ds| - 1];
      ValueLeadingZero(ds[..|ds| - 1]);
    } else {
      assert z[..0] == [];
    }
  }

  /** Leading zeros are skipped: `parseInt("0" + ds, 10)` reads `ds` when
      `ds` starts with a digit. The grouping follows `ParseIntDecimalForm`. */
  lemma ParseIntLeadingZero(sign: string, ds: string, rest: string)
    requires sign == "" || sign == "+" || sign == "-"
    requires ds != [] && AllDigits(ds, 10)
    requires rest == [] || !IsDigit(rest[0], 10)
    ensures ParseInt(sign + ("0" + ds + rest), 10) == ParseInt(sign + (ds + rest), 10)
  {
    ValueLeadingZero(ds);
    var zs := "0" + ds;
    ParseIntDecimalForm(sign, zs, rest);
    ParseIntDecimalForm(sign, ds, rest);
    SignedDigitsLeadingZero(sign, ds);
  }

  lemma SignedDigitsLeadingZero(sign: string, ds: string)
    requires ds != [] && AllDigits(ds, 10)
    ensures AllDigits("0" + ds, 10) && SignedDigits(sign, "0" + ds) == SignedDigits(sign, ds)
  {
    ValueLeadingZero(ds);
  }

  /** Leading whitespace never changes what `parseInt` reads. */
  lemma {:induction false} ParseIntSkipsSpace(w: string, s: string, radix: int)
    requires AllSpace(w)
    ensures ParseInt(w + s, radix) == ParseInt(s, radix)
  {
    TrimStartSkipsSpace(w, s);
  }

  lemma {:induction false} TrimStartSkipsSpace(w: string, s: string)
    requires AllSpace(w)
    ensures TrimStart(w + s) == TrimStart(s)
  {
    if |w| > 0 {
      assert (w + s)[1..] == w[1..] + s;
      TrimStartSkipsSpace(w[1..], s);
    } else {
      assert w + s == s;
    }
  }
}

=== FILE: message_service.dfy ===
/**
  The message-service hook: fetch and send messages with the session's
  credential record, and end the session on a 401. Its error handler logs
  out on a 401 and rethrows in every case, so a failed call never yields a
  value: the `return []` after it in `fetchMessages` cannot be reached, which
  the result type here makes explicit (the handler returns only an error).
 */
module MessageService {
  import opened Base
  import opened Remote
  import opened Session

  /** The body of a message list answer; `None` is a falsy body. */
  type MessagesBody = Option<seq<Message>>

  /** `handleAuthError(error)`: logs out exactly on a 401 answer, then
      rethrows the same error. */
  function HandleAuthError(s: Session, e: JsError): (r: (Session, JsError))
    ensures r.1 == e
    ensures e.status == Some(401) ==> r.0 == Logout(s)
    ensures e.status != Some(401) ==> r.0 == s
  {
    if e.status == Some(401) then (Logout(s), e) else (s, e)
  }

  /** `fetchMessages(channelId)`: an empty list and no request without
      credentials; otherwise the answer's body, or the request error after
      the 401 check. */
  function FetchMessages(s: Session, channelId: int, reply: Outcome<MessagesBody>): (r: (Session, Result<MessagesBody, JsError>))
    ensures s.credentials == None ==> r == (s, Ok(Some([])))
    ensures s.credentials.Some? ==> (r.1.Ok? <==> reply.Success?)
    ensures s.credentials.Some? && reply.Success? ==> r == (s, Ok(reply.body))
    ensures s.credentials.Some? && !reply.Success? ==> r == (HandleAuthError(s, Thrown(reply)).0, Err(Thrown(reply)))
  {
    if s.credentials == None then (s, Ok(Some([])))
    else
      match reply
      case Success(data) => (s, Ok(data))
      case _ =>
        var (s', e) := HandleAuthError(s, Thrown(reply));
        (s', Err(e))
  }

  /** `sendMessage(channelId, content)`: the request is made whatever the
      credentials; the created message, or the error after the 401 check. */
  function SendMessage(s: Session, channelId: int, content: string, reply: Outcome<Message>): (r: (Session, Result<Message, JsError>))
    ensures r.1.Ok? <==> reply.Success?
    ensures reply.Success? ==> r == (s, Ok(reply.body))
    ensures !reply.Success? ==> r == (HandleAuthError(s, Thrown(reply)).0, Err(Thrown(reply)))
  {
    match reply
    case Success(message) => (s, Ok(message))
    case _ =>
      var (s', e) := HandleAuthError(s, Thrown(reply));
      (s', Err(e))
  }

  /** A 401 from either call ends the session; any other failure leaves it. */
  lemma UnauthorizedEndsSession(s: Session, channelId: int, content: string, data: ErrorData)
    requires s.credentials.Some?
    ensures !IsAuthenticated(FetchMessages(s, channelId, HttpError(401, data)).0)
    ensures FetchMessages(s, channelId, HttpError(401, data)).0.credentials == None
    ensures SendMessage(s, channelId, content, HttpError(401, data)).0 == Logout(s)
  {
  }

  lemma OtherFailuresKeepSession(s: Session, channelId: int, content: string, f1: Outcome<MessagesBody>, f2: Outcome<Message>)
    requires !f1.Success? && !(f1.HttpError? && f1.status == 401)
    requires !f2.Success? && !(f2.HttpError? && f2.status == 401)
    ensures FetchMessages(s, channelId, f1) == (s, if s.credentials == None then Ok(Some([])) else Err(Thrown(f1)))
    ensures SendMessage(s, channelId, content, f2) == (s, Err(Thrown(f2)))
  {
  }
}

=== FILE: messages.dfy ===
/**
  The messages provider: the message list of the active channel, the active
  channel id and a loading flag. Loads replace the list wholesale; sends
  append only the message the server returns. A 401 during either call ends
  the session through the message-service hook, so both operations return
  the next session as well.
 */
module Messages {
  import opened Base
  import opened Remote
  import opened Session
  import MessageService

  datatype MessageStore = MessageStore(messages: seq<Message>, active: Option<int>, loading: bool)

  const Initial := MessageStore([], None, false)

  /** A channel id is truthy when present and not 0. */
  predicate IsTruthy(id: Option<int>) {
    id.Some? && id.value != 0
  }

  /** The reaction to losing authentication. */
  function Cleared(st: MessageStore): (r: MessageStore)
    ensures r.messages == [] && r.active == None && r.loading == st.loading
  {
    st.(messages := [], active := None)
  }

  /** `loadMessages(channelId)`. Logged out or with a falsy id: the list is
      emptied and nothing is fetched. Otherwise the id becomes active before
      the fetch, an answer replaces the list (a falsy body by []), and a
      failure keeps the list and propagates. */
  function LoadMessages(st: MessageStore, s: Session, id: Option<int>, reply: Outcome<MessageService.MessagesBody>): (r: (MessageStore, Session, Result<(), JsError>))
    ensures !IsAuthenticated(s) || !IsTruthy(id) ==> r == (st.(messages := []), s, Ok(()))
    ensures IsAuthenticated(s) && IsTruthy(id) ==>
      && r.0.active == id && !r.0.loading
      && (r.2.Ok? <==> reply.Success?)
      && (reply.Success? ==> r.0.messages == reply.body.GetOr([]) && r.1 == s)
      && (!reply.Success? ==>
            r.0.messages == st.messages && r.2 == Err(Thrown(reply))
            && r.1 == MessageService.HandleAuthError(s, Thrown(reply)).0)
  {
    if !IsAuthenticated(s) || !IsTruthy(id) then (st.(messages := []), s, Ok(()))
    else
      var (s', answer) := MessageService.FetchMessages(s, id.value, reply);
      match answer
      case Ok(data) => (st.(active := id, messages := data.GetOr([]), loading := false), s', Ok(()))
      case Err(e) => (st.(active := id, loading := false), s', Err(e))
  }

  /** `createMessage(content)`: nothing without an active channel or a
      session; otherwise the server's message is appended on success and
      returned, and a failure returns null with the list unchanged. */
  function CreateMessage(st: MessageStore, s: Session, content: string, reply: Outcome<Message>): (r: (MessageStore, Session, Option<Message>))
    ensures !IsTruthy(st.active) || !IsAuthenticated(s) ==> r == (st, s, None)
    ensures r.0.active == st.active && r.0.loading == st.loading
    ensures r.2.Some? ==> reply.Success? && r.2.value == reply.body && r.0.messages == st.messages + [reply.body]
    ensures r.2.None? ==> r.0.messages == st.messages
    ensures IsTruthy(st.active) && IsAuthenticated(s) ==>
      (r.2.Some? <==> reply.Success?)
      && r.1 == (if reply.Success? then s else MessageService.HandleAuthError(s, Thrown(reply)).0)
  {
    if !IsTruthy(st.active) || !IsAuthenticated(s) then (st, s, None)
    else
      var (s', sent) := MessageService.SendMessage(s, st.active.value, content, reply);
      match sent
      case Ok(message) => (st.(messages := st.messages + [message]), s', Some(message))
      case Err(_) => (st, s', None)
  }

  /** The last message after a successful send is exactly the server's, and
      the earlier ones are untouched: no placeholder is ever added. */
  lemma SendAppendsServerMessage(st: MessageStore, s: Session, content: string, m: Message)
    requires IsTruthy(st.active) && IsAuthenticated(s)
    ensures var after := CreateMessage(st, s, content, Success(m)).0.messages;
      |after| == |st.messages| + 1 && after[|after| - 1] == m && after[..|st.messages|] == st.messages
  {
  }

  /** A load with no channel id makes no request: its result does not depend
      on the server. */
  lemma LoadWithoutChannelMakesNoRequest(st: MessageStore, s: Session, id: Option<int>,
                                         r1: Outcome<MessageService.MessagesBody>, r2: Outcome<MessageService.MessagesBody>)
    requires !IsTruthy(id)
    ensures LoadMessages(st, s, id, r1) == LoadMessages(st, s, id, r2)
    ensures LoadMessages(st, s, id, r1).0.messages == []
  {
  }
}

=== FILE: remote.dfy ===
/**
  What the client receives from the REST API, reduced to the values the
  providers look at. A remote call is not performed: its outcome is an input
  of the step that makes it. `HttpError` stands for an answer with a non-2xx
  status (axios rejects such answers; `fetch` resolves them with `ok` false),
  `NetworkError` for a call that got no answer at all.
 */
module Remote {
  import opened Base
  import JsText

  /** The parts of an error body the client reads: `data.errors`,
      `data.error` and `data.errors.full_messages`. */
  datatype ErrorData = ErrorData(errors: Option<string>, error: Option<string>, fullMessages: Option<seq<string>>)

  /** The outcome of one remote call: an answer with a body, an answer with
      an error status (meant to be outside 200-299; the type does not
      enforce it), or no answer at all. */
  datatype Outcome<+T> =
    | Success(body: T)
    | HttpError(status: int, data: ErrorData)
    | NetworkError(message: string)

  /** A thrown JavaScript error as the catch blocks see it:
      `error.response?.status`, `error.response?.data` and `error.message`. */
  datatype JsError = JsError(status: Option<int>, data: Option<ErrorData>, message: string)

  /** `new Error(message)`: no response attached. */
  function Raise(message: string): (e: JsError)
    ensures e.status == None && e.data == None && e.message == message
  {
    JsError(None, None, message)
  }

  /** The error axios rejects with when a request does not succeed. */
  function Thrown<T>(o: Outcome<T>): (e: JsError)
    requires !o.Success?
    ensures o.HttpError? ==> e.status == Some(o.status) && e.data == Some(o.data)
    ensures o.NetworkError? ==> e == Raise(o.message)
  {
    match o
    case HttpError(status, data) => JsError(Some(status), Some(data), "Request failed with status code " + JsText.ShowInt(status))
    case NetworkError(message) => Raise(message)
  }

  /** `error.response?.data?.errors`. */
  function ResponseErrors(e: JsError): Option<string> {
    if e.data.Some? then e.data.value.errors else None
  }

  /** `error.response?.data?.errors?.full_messages`. */
  function FullMessages(e: JsError): Option<seq<string>> {
    if e.data.Some? then e.data.value.fullMessages else None
  }

  /** `error.response?.data?.error`. */
  function ResponseError(e: JsError): Option<string> {
    if e.data.Some? then e.data.value.error else None
  }

  /** A user record as the API returns it. */
  datatype Profile = Profile(id: int, email: string)

  /** A channel record as the API returns it. */
  datatype Channel = Channel(id: int, name: string, memberIds: seq<int>)

  /** A message record as the API returns it, with its server-assigned id
      and creation time. */
  datatype Message = Message(id: int, channelId: int, sender: Profile, content: string, createdAt: string)
}

=== FILE: session.dfy ===
/**
  The authentication provider: the credential record (the four
  devise-token-auth headers), the current user, the loading flag and the last
  error, plus the copy of the credential record kept in local storage.
  Each operation is a pure step from a session and the outcome of the remote
  call it makes to the next session (and, for login and signup, the value the
  call returns to its caller). The clock is the integer `now` in
  milliseconds.
 */
module Session {
  import opened Base
  import opened JsText
  import opened Remote

  /** The `userHeaders` record; a field is `None` when the server did not
      send that header. */
  datatype Credentials = Credentials(accessToken: Option<string>, uid: Option<string>, expiry: Option<string>, client: Option<string>)

  /** The provider state; `stored` is the `userHeaders` entry of local
      storage. */
  datatype Session = Session(
    credentials: Option<Credentials>,
    user: Option<Profile>,
    loading: bool,
    error: Option<string>,
    stored: Option<Credentials>)

  /** What sign-in and sign-up receive: the response headers and
      `response.data`, where `NoBody` is a falsy `response.data` and
      `AuthBody(d)` carries its `data` field. */
  datatype AuthBody = NoBody | AuthBody(data: Option<Profile>)
  datatype AuthReply = AuthReply(headers: map<string, string>, body: AuthBody)

  /** What token validation and the current-user call receive: the body's
      `data` field, and the body itself read as a user record. */
  datatype UserBody = UserBody(data: Option<Profile>, whole: Profile)

  /** The value `login` and `signup` resolve to; `Undefined` when the server
      answered with an empty body. */
  datatype AuthResult = Succeeded(user: Option<Profile>) | Failed(error: string) | Undefined

  datatype AuthKind = SignIn | SignUp

  /** `isAuthenticated`: a credential record AND a current user. */
  predicate IsAuthenticated(s: Session) {
    s.credentials.Some? && s.user.Some?
  }

  /** No current user without a credential record. */
  predicate Coherent(s: Session) {
    s.user.Some? ==> s.credentials.Some?
  }

  /** The state the provider starts in, reading local storage. */
  function Restore(stored: Option<Credentials>): (s: Session)
    ensures Coherent(s) && !IsAuthenticated(s)
    ensures s.credentials == stored && s.stored == stored
    ensures s.user == None && s.loading && s.error == None
  {
    Session(stored, None, true, None, stored)
  }

  function Header(h: map<string, string>, name: string): Option<string> {
    if name in h then Some(h[name]) else None
  }

  /** The credential record built from response headers. */
  function CredentialsOf(h: map<string, string>): Credentials {
    Credentials(Header(h, "access-token"), Header(h, "uid"), Header(h, "expiry"), Header(h, "client"))
  }

  /** `handleHeaders`: installs the record made of the four authentication
      headers and writes the same record to local storage. */
  function HandleHeaders(s: Session, h: map<string, string>): (r: Session)
    ensures r.credentials == Some(CredentialsOf(h)) && r.stored == r.credentials
    ensures r.user == s.user && r.loading == s.loading && r.error == s.error
  {
    var c := CredentialsOf(h);
    s.(credentials := Some(c), stored := Some(c))
  }

  /** `logout`: forgets the credential record, the user and the stored copy,
      whatever the state was; the flag and the error stay. */
  function Logout(s: Session): (r: Session)
    ensures r.credentials == None && r.user == None && r.stored == None
    ensures r.loading == s.loading && r.error == s.error
    ensures Coherent(r) && !IsAuthenticated(r)
  {
    s.(credentials := None, user := None, stored := None)
  }

  /** `isTokenExpired(expiry)` at time `now`: a missing or empty expiry is
      expired; otherwise the expiry is read by `parseInt` WITHOUT a radix
      (so `0x` means hexadecimal) and is in seconds; a NaN expiry compares
      false and so is never expired. */
  function IsTokenExpired(expiry: Option<string>, now: int): (r: bool)
    ensures !Truthy(expiry) ==> r
    ensures Truthy(expiry) && ParseInt(expiry.value, 0) == NaN ==> !r
    ensures Truthy(expiry) && ParseInt(expiry.value, 0).Int? ==>
      (r <==> now > ParseInt(expiry.value, 0).value * 1000)
  {
    if !Truthy(expiry) then true
    else
      match ParseInt(expiry.value, 0)
      case NaN => false
      case Int(seconds) => now > seconds * 1000
  }

  /** The error text of a failed sign-in (`errors`) or sign-up
      (`errors.full_messages` joined by ", "), or the default text. */
  function AuthFailureText(e: JsError, kind: AuthKind): (r: string)
    ensures kind == SignIn && Truthy(ResponseErrors(e)) ==> r == ResponseErrors(e).value
    ensures kind == SignIn && !Truthy(ResponseErrors(e)) ==> r == "Invalid credentials"
    ensures kind == SignUp && FullMessages(e).Some? && Join(FullMessages(e).value, ", ") != "" ==>
      r == Join(FullMessages(e).value, ", ")
    ensures kind == SignUp && (FullMessages(e).None? || Join(FullMessages(e).value, ", ") == "") ==>
      r == "Error creating account"
  {
    match kind
    case SignIn => Either(ResponseErrors(e), "Invalid credentials")
    case SignUp =>
      var full := if FullMessages(e).Some? then Some(Join(FullMessages(e).value, ", ")) else None;
      Either(full, "Error creating account")
  }

  /** Two sign-up messages are reported as one text, separated by ", ". */
  lemma SignupMessagesJoined(e: JsError, first: string, second: string)
    requires FullMessages(e) == Some([first, second])
    ensures AuthFailureText(e, SignUp) == first + ", " + second
  {
    JoinAppend([first], second, ", ");
    assert [first] + [second] == [first, second];
  }

  /** The request part shared by `login` and `signup`: a body installs the
      headers and the user at once and clears the error; a failure records
      its text and touches nothing else; the flag always ends false. */
  function Authenticate(s: Session, reply: Outcome<AuthReply>, kind: AuthKind): (r: (Session, AuthResult))
    ensures !r.0.loading
    ensures Coherent(s) ==> Coherent(r.0)
    ensures r.1.Failed? <==> !reply.Success?
    ensures reply.Success? && reply.body.body.AuthBody? ==>
      && r.0.credentials == Some(CredentialsOf(reply.body.headers))
      && r.0.stored == r.0.credentials
      && r.0.user == reply.body.body.data
      && r.0.error == None
      && r.1 == Succeeded(reply.body.body.data)
    ensures reply.Success? && reply.body.body.NoBody? ==> r == (s.(loading := false), Undefined)
    ensures !reply.Success? ==>
      && r.1 == Failed(AuthFailureText(Thrown(reply), kind))
      && r.0 == s.(loading := false, error := Some(r.1.error))
  {
    match reply
    case Success(AuthReply(headers, body)) =>
      (match body
       case NoBody => (s.(loading := false), Undefined)
       case AuthBody(data) =>
         (HandleHeaders(s, headers).(user := data, error := None, loading := false), Succeeded(data)))
    case _ =>
      var text := AuthFailureText(Thrown(reply), kind);
      (s.(loading := false, error := Some(text)), Failed(text))
  }

  /** `login(email, password)`. */
  function Login(s: Session, email: string, password: string, reply: Outcome<AuthReply>): (r: (Session, AuthResult))
    ensures r == Authenticate(s, reply, SignIn)
    ensures !reply.Success? ==> r.1 == Failed(Either(ResponseErrors(Thrown(reply)), "Invalid credentials"))
  {
    Authenticate(s, reply, SignIn)
  }

  /** `signup(email, password, confirmation)`: a mismatch fails before any
      request and leaves the whole session, error included, as it was. */
  function Signup(s: Session, email: string, password: string, confirmation: string, reply: Outcome<AuthReply>): (r: (Session, AuthResult))
    ensures password != confirmation ==> r == (s, Failed("Passwords do not match"))
    ensures password == confirmation ==> r == Authenticate(s, reply, SignUp)
  {
    if password != confirmation then (s, Failed("Passwords do not match"))
    else Authenticate(s, reply, SignUp)
  }

  /** The error a non-OK token validation throws. */
  function ValidationFailure(status: int): string {
    "Failed to validate token: " + ShowInt(status)
  }

  /** The catch block of the validation effect: record the message, and log
      out only when it mentions 401 or Unauthorized. */
  function ValidationCaught(s: Session, message: string): (r: Session)
    ensures r.error == Some(message) && !r.loading
    ensures (Contains(message, "401") || Contains(message, "Unauthorized")) ==> r == Logout(s).(error := Some(message), loading := false)
    ensures !(Contains(message, "401") || Contains(message, "Unauthorized")) ==> r == s.(error := Some(message), loading := false)
  {
    var s1 := s.(error := Some(message), loading := false);
    if Contains(message, "401") || Contains(message, "Unauthorized") then Logout(s1) else s1
  }

  /** The validation effect (`fetchCurrentUser`), run whenever the
      credential record changes. */
  function Validate(s: Session, now: int, reply: Outcome<UserBody>): (r: Session)
    ensures !r.loading
    ensures Coherent(s) ==> Coherent(r)
    ensures s.credentials == None ==> r == s.(loading := false)
    ensures s.credentials.Some? && IsTokenExpired(s.credentials.value.expiry, now) ==>
      r == Logout(s).(loading := false)
    ensures s.credentials.Some? && !IsTokenExpired(s.credentials.value.expiry, now) ==>
      && (reply.Success? ==>
            r == s.(user := Some(reply.body.data.GetOr(reply.body.whole)), error := None, loading := false))
      && (reply.HttpError? && reply.status == 401 ==> r == Logout(s).(loading := false))
      && (reply.HttpError? && reply.status != 401 ==> r == ValidationCaught(s, ValidationFailure(reply.status)))
      && (reply.NetworkError? ==> r == ValidationCaught(s, reply.message))
  {
    if s.credentials == None then s.(loading := false)
    else if IsTokenExpired(s.credentials.value.expiry, now) then Logout(s).(loading := false)
    else
      match reply
      case Success(body) =>
        s.(user := Some(body.data.GetOr(body.whole)), error := None, loading := false)
      case HttpError(status, _) =>
        if status == 401 then Logout(s).(loading := false)
        else ValidationCaught(s, ValidationFailure(status))
      case NetworkError(message) => ValidationCaught(s, message)
  }

  /** `refreshUser`: nothing without credentials; an OK answer sets the user
      to the whole body, a 401 logs out, anything else changes nothing (not
      even the error or the flag). */
  function RefreshUser(s: Session, reply: Outcome<UserBody>): (r: Session)
    ensures Coherent(s) ==> Coherent(r)
    ensures s.credentials == None ==> r == s
    ensures s.credentials.Some? ==>
      && (reply.Success? ==> r == s.(user := Some(reply.body.whole)))
      && (reply.HttpError? && reply.status == 401 ==> r == Logout(s))
      && (reply.HttpError? && reply.status != 401 ==> r == s)
      && (reply.NetworkError? ==> r == s)
  {
    if s.credentials == None then s
    else
      match reply
      case Success(body) => s.(user := Some(body.whole))
      case HttpError(status, _) => if status == 401 then Logout(s) else s
      case NetworkError(_) => s
  }

  // ---------------------------------------------------------------------
  // Properties

  /** A restored credential record alone does not authenticate. */
  lemma CredentialsAloneNotAuthenticated(s: Session)
    requires s.user == None
    ensures !IsAuthenticated(s)
  {
  }

  /** Logging out twice is logging out once. */
  lemma LogoutIdempotent(s: Session)
    ensures Logout(Logout(s)) == Logout(s)
  {
  }

  /** What is persisted restores to exactly what was installed. */
  lemma PersistedRecordRestores(s: Session, h: map<string, string>)
    ensures Restore(HandleHeaders(s, h).stored).credentials == HandleHeaders(s, h).credentials
  {
  }

  /** Only the four authentication headers reach the credential record. */
  lemma OtherHeadersIgnored(s: Session, h: map<string, string>, name: string, v: string)
    requires name !in {"access-token", "uid", "expiry", "client"}
    ensures HandleHeaders(s, h[name := v]) == HandleHeaders(s, h)
  {
  }

  /** A sign-up whose passwords differ does not depend on the server: no
      request is made. */
  lemma SignupMismatchMakesNoRequest(s: Session, email: string, password: string, confirmation: string, r1: Outcome<AuthReply>, r2: Outcome<AuthReply>)
    requires password != confirmation
    ensures Signup(s, email, password, confirmation, r1) == Signup(s, email, password, confirmation, r2)
    ensures Signup(s, email, password, confirmation, r1).0 == s
  {
  }

  /** An expiry written as decimal seconds expires exactly after that many
      seconds. */
  lemma RenderedExpiry(seconds: int, now: int)
    ensures IsTokenExpired(Some(ShowInt(seconds)), now) <==> now > seconds * 1000
  {
    ParseIntShowInt(seconds, 0);
  }

  /** Once expired, a token stays expired as the clock advances. */
  lemma ExpiryIsMonotone(expiry: Option<string>, now: int, later: int)
    requires now <= later
    requires IsTokenExpired(expiry, now)
    ensures IsTokenExpired(expiry, later)
  {
  }

  /** A three-digit status renders as its three digits. */
  lemma ShowThreeDigits(n: int)
    requires 100 <= n <= 999
    ensures ShowInt(n) == [DigitChar(n / 100), DigitChar(n / 10 % 10), DigitChar(n % 10)]
  {
    var a, b := n / 100, n / 10;
    assert b / 10 == a && 1 <= a < 10 && b >= 10;
    assert ShowNat(a) == [DigitChar(a)];
    assert ShowNat(b) == ShowNat(a) + [DigitChar(b % 10)];
    assert ShowNat(n) == ShowNat(b) + [DigitChar(n % 10)];
  }

  /** Only 401 renders as "401" among the three-digit statuses. */
  lemma RenderedStatusIsNot401(status: int)
    requires 100 <= status <= 999 && status != 401
    ensures ShowInt(status) != "401"
  {
    ShowThreeDigits(status);
    assert status == status / 100 * 100 + status / 10 % 10 * 10 + status % 10;
    assert DigitCode('4') == 4 && DigitCode('0') == 0 && DigitCode('1') == 1;
  }

  /** The validation error mentions 401 only for status 401: every other
      three-digit status leaves the validation catch block without logging
      out. */
  lemma {:induction false} ValidationFailureIsNotUnauthorized(status: int)
    requires 100 <= status <= 999 && status != 401
    ensures !Contains(ValidationFailure(status), "401")
    ensures !Contains(ValidationFailure(status), "Unauthorized")
  {
    var p := "Failed to validate token: ";
    var d := ShowInt(status);
    var m := ValidationFailure(status);
    assert m == p + d;
    assert forall k | 0 <= k < |p| :: p[k] != '4' && p[k] != 'U';
    ShowThreeDigits(status);
    RenderedStatusIsNot401(status);
    assert |m| == |p| + 3;
    forall i | 0 <= i <= |m| - 3
      ensures !OccursAt(m, "401", i)
    {
      if i < |p| {
        assert m[i] == p[i];
        assert m[i..i + 3][0] == m[i];
      } else {
        assert i == |p| && m[|p|..] == d;
      }
    }
    forall i | 0 <= i <= |m| - 12
      ensures !OccursAt(m, "Unauthorized", i)
    {
      assert m[i] == p[i];
      assert m[i..i + 12][0] == m[i];
    }
  }

  /** An answer with another status keeps the session: credentials and user
      stay and only the error changes. */
  lemma ValidationServerErrorKeepsSession(s: Session, now: int, status: int, data: ErrorData)
    requires s.credentials.Some? && !IsTokenExpired(s.credentials.value.expiry, now)
    requires 100 <= status <= 999 && status != 401
    ensures Validate(s, now, HttpError(status, data)) == s.(error := Some(ValidationFailure(status)), loading := false)
  {
    ValidationFailureIsNotUnauthorized(status);
  }
}

=== FILE: users.dfy ===
/**
  The users provider: the user directory, a loading flag and the last error.
  It fetches only while authenticated and never reacts to losing
  authentication: the directory survives a logout.
 */
module Users {
  import opened Base
  import opened Remote

  datatype UserStore = UserStore(users: seq<Profile>, loading: bool, error: Option<string>)

  const Initial := UserStore([], false, None)

  /** `fetchUsers()`: a no-op while logged out; otherwise the error is
      cleared, an answer replaces the directory, and a failure keeps it and
      records the server's `errors` or "Failed to fetch users". */
  function FetchUsers(st: UserStore, auth: bool, reply: Outcome<seq<Profile>>): (r: UserStore)
    ensures !auth ==> r == st
    ensures auth ==> !r.loading
    ensures auth && reply.Success? ==> r.users == reply.body && r.error == None
    ensures auth && !reply.Success? ==>
      r.users == st.users && r.error == Some(Either(ResponseErrors(Thrown(reply)), "Failed to fetch users"))
  {
    if !auth then st
    else
      match reply
      case Success(data) => st.(users := data, loading := false, error := None)
      case _ => st.(loading := false, error := Some(Either(ResponseErrors(Thrown(reply)), "Failed to fetch users")))
  }

  /** The condition of the automatic fetch. */
  predicate ShouldAutoFetch(st: UserStore, auth: bool) {
    auth && |st.users| == 0
  }

  /** The automatic fetch: it runs only when authenticated with an empty
      directory, so a loaded directory is never refetched by it. */
  function AutoFetch(st: UserStore, auth: bool, reply: Outcome<seq<Profile>>): (r: UserStore)
    ensures !ShouldAutoFetch(st, auth) ==> r == st
    ensures ShouldAutoFetch(st, auth) ==> r == FetchUsers(st, auth, reply)
  {
    if ShouldAutoFetch(st, auth) then FetchUsers(st, auth, reply) else st
  }

  /** Once an automatic fetch has loaded a non-empty directory, the next
      automatic fetch is a no-op whatever the server would answer. */
  lemma AutoFetchLoadsOnce(st: UserStore, reply: Outcome<seq<Profile>>, next: Outcome<seq<Profile>>)
    requires reply.Success? && |reply.body| > 0
    ensures AutoFetch(AutoFetch(st, true, reply), true, next) == AutoFetch(st, true, reply)
  {
  }
}
